=== FILE: README.md ===
# Unique IDs of the JUnit 5 engine's discovery layer, in Dafny

This project models how the JUnit 5 engine (an early prototype, package `org.junit.gen5`) names
and re-resolves the things it discovers. It also proves properties of that model.

- **`JUnit5TestableFactory`** works in two directions.
  - Forward: a declared class or method becomes a *testable*. The four testables are a top-level
    class, a nested class, a test method, and the `doNothing` sentinel. Each testable except the
    sentinel carries a *unique ID*: the engine's ID followed by `(type, value)` segments
    (`class`, `nested-class`, `method`).
  - Reverse: a unique ID becomes a testable again. The factory drops the first segment, then folds
    the remaining segments from left to right. The fold carries the last resolved testable, and it
    re-resolves each class, nested class or method through the forward direction.
- **`TestContainerResolver`** is the pluggable element resolver. It claims top-level test
  container classes and mints their ID by appending one `class` segment to the parent's ID.

Reflection is replaced by a finite, immutable class table (`Reflection.ClassTable`):
- A `Class` has a binary name, a simple name, an optional enclosing class (a sub-value, so nesting
  is finite), and the flags `isPotentialTestContainer` and `isNestedTestClass`.
- A `Method` has a name, the names of its parameter types, and the flag `isTestMethod`.
- Class loading is a partial map from binary names to classes.
- Method finding is a partial map from (class name, method spec) to methods.

Each exception the Java code can raise is an `Outcomes.Failure` carried by `Result`:
- `PreconditionViolation` with the source's message;
- `NullPointer`;
- `ClassCast`;
- `IndexOutOfBounds`.

A `null` testable is `Option.None`.

Files:
- `outcomes.dfy`: `Option`, `Failure`, `Result`.
- `unique_ids.dfy`: segments and IDs.
- `reflection.dfy`: the class table and its lookups, and the rendering of parameter types.
- `testable_factory.dfy`: the forward and reverse directions of `JUnit5TestableFactory`.
- `testable_factory_properties.dfy`: ID shape, the fold's behaviour, and the round trip.
- `test_container_resolver.dfy`: `TestContainerResolver`, and how it agrees with the factory.

### Assumptions about code outside the model

- `JUnit5Testable`, `JUnit5Class`, `JUnit5NestedClass` and `JUnit5Method` are not part of this
  model.
  - The `doNothing` sentinel is taken to carry a null ID. So appending a segment to it (lines 70
    and 86 of the factory) is modelled as a `NullPointer` failure.
  - `JUnit5NestedClass` is taken to extend `JUnit5Class`. So the casts at lines 101 and 106 accept
    both class testables. The nested example (class `Outer` holding `Inner` holding `works()`)
    resolves back only under this reading.
- `UniqueId` is not part of this model.
  - `getSegments()` is taken to return a fresh, mutable copy, which `remove(0)` then shortens.
  - `append` is taken to return a new ID and leave the receiver unchanged. Every `fromClass` call
    appends to the same engine ID, so the model relies on this.
- `StringUtils` is not part of this model. `nullSafeToString(Class...)` is taken to render the
  type names joined by `", "`.
- `MethodFinder` is not part of this model. It is the partial map `ClassTable.methods`. The round
  trip assumes that this map sends `(class name, MethodId(m))` back to `m`.

### How the reverse direction treats failures

- Some failures throw rather than yield `doNothing`:
  - a class name that cannot be loaded throws a `PreconditionViolationException` (lines 137-143);
  - a `nested-class` or `method` segment after a null testable passes the cast (casting null
    succeeds in Java) and then throws a `NullPointerException` at `getJavaClass()`; after a
    non-class testable it fails the cast with a `ClassCastException` (lines 101 and 106).
- Of the failed lookups, only an unknown segment type or a method the finder cannot find yields
  `doNothing`, and it ends the fold at once (lines 107-111 and 116-119).
- A segment that resolves to something that is not a test also yields `doNothing`, and the fold
  goes on. This happens for a loadable class that is neither a potential test container nor a
  nested test class (line 66), and for a found method that is not a test method (line 82). A
  `nested-class` or `method` segment after such a `doNothing` then fails the cast.
- A nested test class whose enclosing class resolves to `doNothing` has no ID to extend. The
  model's `Err(NullPointer)` reflects that; it does not produce the sentinel.

## Model

| member | source | states |
|---|---|---|
| `TestableFactory.FromClass` | junit5-engine/src/main/java/org/junit/gen5/engine/junit5/discovery/JUnit5TestableFactory.java:52-67 | A potential test container always becomes a top-level class testable whose ID is the engine ID plus exactly one `("class", binary name)` segment, even when it is also a nested test class. A nested test class that is not a container resolves whenever its enclosing class resolves to a class testable, and its ID is the enclosing class's ID plus one `nested-class` segment; if the enclosing class fails, that failure is passed on. A nested test class with no enclosing class fails the not-null precondition, and one whose enclosing class resolves to `doNothing` is a null dereference; only a potential test container ever becomes a top-level class testable. `doNothing` comes back exactly when neither predicate holds. Failures arise only for nested test classes. Every resolved ID has the shape engine ID, one `class` segment, then only `nested-class` segments. |
| `TestableFactory.CreateNestedClassTestable` | junit5-engine/src/main/java/org/junit/gen5/engine/junit5/discovery/JUnit5TestableFactory.java:69-73 | The enclosing class is resolved first. Whenever it resolves to a class testable, the result is a nested class testable whose ID extends the enclosing ID by `("nested-class", simple name)`. A missing enclosing class fails the not-null precondition. A failure of the enclosing class is passed on unchanged. An enclosing class that resolves to `doNothing` is a null dereference. |
| `TestableFactory.MethodId` | junit5-engine/src/main/java/org/junit/gen5/engine/junit5/discovery/JUnit5TestableFactory.java:84-85 | The method segment's value is the method name, then `(`, then the rendered parameter types, then `)`. |
| `TestableFactory.FromMethod` | junit5-engine/src/main/java/org/junit/gen5/engine/junit5/discovery/JUnit5TestableFactory.java:75-88 | A non-test method yields `doNothing`. A test method never yields `doNothing`: it becomes a method testable exactly when its class resolves to a class testable, with that class's ID plus `("method", name(param types))`. If the class fails, that failure is passed on; if the class resolves to `doNothing`, that is a null dereference. |
| `TestableFactory.Step` | junit5-engine/src/main/java/org/junit/gen5/engine/junit5/discovery/JUnit5TestableFactory.java:94-120 | One segment of the fold stops early exactly for an unknown type, or for a method the finder cannot find in the accumulated class. `nested-class` and `method` segments abort unless a class testable precedes them. An unloadable `class` name aborts with the "Cannot load class" precondition. A loadable `class` segment continues with `fromClass` of that class, or aborts with its failure. After a class testable, a `nested-class` segment loads `<container>$<value>` and continues with `fromClass` of it; if that name does not load, it aborts with the "Cannot resolve class name" precondition. A `method` segment the finder resolves continues with `fromMethod` of the found method, or aborts with its failure. |
| `TestableFactory.CreateTestable` | junit5-engine/src/main/java/org/junit/gen5/engine/junit5/discovery/JUnit5TestableFactory.java:90-122 | The fold returns null only when there are no segments and the start is null. After at least one segment, anything it resolves lies strictly below the engine ID, and it yields a method testable only if some segment is a `method` segment. |
| `TestableFactory.FromUniqueId` | junit5-engine/src/main/java/org/junit/gen5/engine/junit5/discovery/JUnit5TestableFactory.java:42-50 | An empty ID has no engine segment to remove. The result is null exactly for a one-segment ID. Every resolved testable lies strictly below the engine ID. |
| `TestableFactory.ContainerOf` | junit5-engine/src/main/java/org/junit/gen5/engine/junit5/discovery/JUnit5TestableFactory.java:100-106 | The cast to `JUnit5Class` succeeds exactly for class testables and gives their class. A null accumulator is a null dereference. Any other testable is a failed cast. |
| `TestableFactory.FindNestedClass` | junit5-engine/src/main/java/org/junit/gen5/engine/junit5/discovery/JUnit5TestableFactory.java:128-130 | A nested class is looked up under `<container binary name>$<value>`. If it is missing, that is a "Cannot resolve class name" precondition violation. |
| `TestableFactory.FindTopLevelClass` | junit5-engine/src/main/java/org/junit/gen5/engine/junit5/discovery/JUnit5TestableFactory.java:132-134 | A `class` segment's value is looked up as the binary name itself. |
| `TestableFactory.ClassByName` | junit5-engine/src/main/java/org/junit/gen5/engine/junit5/discovery/JUnit5TestableFactory.java:136-139 | The class of that name if it loads. Otherwise a precondition violation naming it. |
| `TestableFactory.LoadClassByName` | junit5-engine/src/main/java/org/junit/gen5/engine/junit5/discovery/JUnit5TestableFactory.java:141-144 | The class of that name if it loads. Otherwise a "Cannot load class" precondition violation naming it. |
| `Reflection.FindMethod` | junit5-engine/src/main/java/org/junit/gen5/engine/junit5/discovery/JUnit5TestableFactory.java:124-126 | Method finding is a partial lookup keyed by the class and the method spec. It finds something exactly when the key is present. |
| `TestableFactoryProperties.ClassIdLength` | junit5-engine/src/main/java/org/junit/gen5/engine/junit5/discovery/JUnit5TestableFactory.java:55-72 | A class ID is as long as the engine ID, plus one `class` segment, plus one `nested-class` segment per hop up to the potential test container the ID is rooted at. |
| `TestableFactoryProperties.ClassIdLengthForEngineRoot` | junit5-engine/src/main/java/org/junit/gen5/engine/junit5/discovery/JUnit5TestableFactory.java:55-72 | With a one-segment engine ID, a class ID is nesting depth + 2 segments long. Here nesting depth counts the `nested-class` hops up to the potential test container the ID is rooted at, not Java nesting: a static nested container `A$B` has depth 0. |
| `TestableFactoryProperties.ContainerCheckTakesPrecedence` | junit5-engine/src/main/java/org/junit/gen5/engine/junit5/discovery/JUnit5TestableFactory.java:55-61 | A class that satisfies both predicates is classified top-level with the one-segment ID, never nested. |
| `TestableFactoryProperties.ParameterTypesToStringInjective` | junit5-engine/src/main/java/org/junit/gen5/engine/junit5/discovery/JUnit5TestableFactory.java:84-85 | The rendering of parameter types loses nothing when the type names are non-empty and comma-free. |
| `TestableFactoryProperties.MethodIdInjective` | junit5-engine/src/main/java/org/junit/gen5/engine/junit5/discovery/JUnit5TestableFactory.java:84-85 | Two method spec strings agree only if the method names and the parameter type lists agree. |
| `TestableFactoryProperties.OverloadsGetDistinctIds` | junit5-engine/src/main/java/org/junit/gen5/engine/junit5/discovery/JUnit5TestableFactory.java:84-87 | Overloaded test methods of one class get distinct unique IDs. |
| `TestableFactoryProperties.FoldOfNothing` | junit5-engine/src/main/java/org/junit/gen5/engine/junit5/discovery/JUnit5TestableFactory.java:92-93 | With no segments left, the fold returns its accumulator. |
| `TestableFactoryProperties.FoldAppend` | junit5-engine/src/main/java/org/junit/gen5/engine/junit5/discovery/JUnit5TestableFactory.java:90-122 | If a fold ends on a real testable, it consumed every segment, so folding more segments continues from that testable. |
| `TestableFactoryProperties.ErrorIgnoresRest` | junit5-engine/src/main/java/org/junit/gen5/engine/junit5/discovery/JUnit5TestableFactory.java:96-121 | Once the fold raises, segments after the failing one change nothing. |
| `TestableFactoryProperties.UnknownSegmentIgnoresRest` | junit5-engine/src/main/java/org/junit/gen5/engine/junit5/discovery/JUnit5TestableFactory.java:116-119 | A segment of unknown type ends the fold, and no later segment is consumed. The result is `doNothing` unless a segment before it already raised; in that case the earlier failure is the result. |
| `TestableFactoryProperties.ClassSegmentIgnoresAccumulator` | junit5-engine/src/main/java/org/junit/gen5/engine/junit5/discovery/JUnit5TestableFactory.java:97-99 | A `class` segment resolves the same way whatever was accumulated before it. |
| `TestableFactoryProperties.ContainerSegmentNeedsClassTestable` | junit5-engine/src/main/java/org/junit/gen5/engine/junit5/discovery/JUnit5TestableFactory.java:100-106 | A `nested-class` or `method` segment fails after a null testable (null dereference) or after a non-class testable (failed cast). |
| `TestableFactoryProperties.EngineSegmentIsIgnored` | junit5-engine/src/main/java/org/junit/gen5/engine/junit5/discovery/JUnit5TestableFactory.java:46-47 | The first segment is dropped unread, so its content never affects the result. |
| `TestableFactoryProperties.ClassIdFoldsBack` | junit5-engine/src/main/java/org/junit/gen5/engine/junit5/discovery/JUnit5TestableFactory.java:90-122 | Folding the segments a class ID adds below the engine gives back the very testable `fromClass` produced, provided class lookup inverts the name renderings. |
| `TestableFactoryProperties.ClassRoundTrip` | junit5-engine/src/main/java/org/junit/gen5/engine/junit5/discovery/JUnit5TestableFactory.java:42-50 | With a one-segment engine ID and invertible class lookup, resolving the ID of a class testable gives the identical testable: the same ID and the same class. |
| `TestableFactoryProperties.MethodRoundTrip` | junit5-engine/src/main/java/org/junit/gen5/engine/junit5/discovery/JUnit5TestableFactory.java:105-115 | Suppose in addition that the method finder maps a method's spec back to that method. Then resolving a test method's ID gives the identical method testable. |
| `TestableFactoryProperties.LongerEngineIdDefeatsRoundTrip` | junit5-engine/src/main/java/org/junit/gen5/engine/junit5/discovery/JUnit5TestableFactory.java:46-47 | Only one segment is dropped. So with a longer engine ID whose second segment has an unknown type, every class ID resolves to `doNothing`. |
| `TestableFactoryProperties.StaleMethodIdResolvesToDoNothing` | junit5-engine/src/main/java/org/junit/gen5/engine/junit5/discovery/JUnit5TestableFactory.java:107-112 | An ID that names a method its class no longer has resolves to `doNothing`, whatever segments follow. |
| `TestableFactoryProperties.MissingNestedClassIsError` | junit5-engine/src/main/java/org/junit/gen5/engine/junit5/discovery/JUnit5TestableFactory.java:128-139 | An ID that names a nested class that cannot be loaded raises "Cannot resolve class name '<container>$<value>'". It does not yield `doNothing`. |
| `TestableFactoryProperties.NonTestClassResolvesToDoNothing` | junit5-engine/src/main/java/org/junit/gen5/engine/junit5/discovery/JUnit5TestableFactory.java:92-106 | A `class` segment naming a loadable class that is neither a potential test container nor a nested test class resolves to `doNothing`. A `nested-class` or `method` segment after it fails the cast. |
| `TestableFactoryProperties.OuterInnerWorksExample` | junit5-engine/src/main/java/org/junit/gen5/engine/junit5/discovery/JUnit5TestableFactory.java:52-88 | `Outer` gets `[engine, class:Outer]`. `Inner` gets `[engine, class:Outer, nested-class:Inner]`. `works()` gets `[…, method:works()]`, and that last ID resolves back to the same method testable. |
| `TestContainerResolver.WillResolve` | junit5-engine/src/main/java/org/junit/gen5/engine/junit5/discoveryNEW/TestContainerResolver.java:23-28 | Only classes are claimed. A class is claimed exactly when the factory would classify it as a top-level class testable. |
| `TestContainerResolver.CreateUniqueId` | junit5-engine/src/main/java/org/junit/gen5/engine/junit5/discoveryNEW/TestContainerResolver.java:31-34 | For a class, the ID is the parent's ID, left unchanged as a prefix, plus exactly one `("class", binary name)` segment. A non-class fails the cast. |
| `TestContainerResolver.Resolve` | junit5-engine/src/main/java/org/junit/gen5/engine/junit5/discoveryNEW/TestContainerResolver.java:37-43 | For a class, the result is a class descriptor that carries exactly the given ID and that class. A non-class fails the cast. |
| `TestContainerResolver.ResolveClass` | junit5-engine/src/main/java/org/junit/gen5/engine/junit5/discoveryNEW/TestContainerResolver.java:41-43 | The class descriptor carries exactly the given ID and class, whatever the parent. |
| `TestContainerResolver.WillResolveIgnoresParent` | junit5-engine/src/main/java/org/junit/gen5/engine/junit5/discoveryNEW/TestContainerResolver.java:23-28 | The claim does not depend on the parent descriptor. |
| `TestContainerResolver.ResolveIgnoresParent` | junit5-engine/src/main/java/org/junit/gen5/engine/junit5/discoveryNEW/TestContainerResolver.java:37-43 | The descriptor does not depend on the parent descriptor. |
| `TestContainerResolver.MintedIdAgreesWithFactory` | junit5-engine/src/main/java/org/junit/gen5/engine/junit5/discoveryNEW/TestContainerResolver.java:33 | Below the engine descriptor, the resolver mints for a claimed class the same ID as the factory's `fromClass`. |
| `TestContainerResolver.MintedIdResolvesToClaimedClass` | junit5-engine/src/main/java/org/junit/gen5/engine/junit5/discoveryNEW/TestContainerResolver.java:31-43 | Take a one-segment engine ID and a class that loads under its own name. The resolver's minted ID resolves, through the factory, to that class with the same ID, and the resolver's descriptor carries that ID. |

## Left out

- Reflection and class loading (`ReflectionUtils.loadClass`, `Class`, `Method`) are replaced by the finite class table and its partial lookups.
- The predicates `IsPotentialTestContainer`, `IsNestedTestClass` and `IsTestMethod` are uninterpreted flags. They rely on annotation introspection, whose code is not part of this model.
- `MethodFinder`'s parsing of the method spec string is not part of this model. It is an abstract lookup, and the round trip states its inversion as a precondition.
- `UniqueId.getUniqueString` (ID serialization and parsing) is not part of this model. The factory uses it only in log messages.
- Logging (`LOG.warning`) is left out because it is a side effect only.
- The `Preconditions.notNull` checks on `uniqueId` and `engineId` are left out, because IDs here are values that cannot be null. The null check on the class is modelled, as a missing enclosing class.
- `SimpleTypeBasedMethodArgumentResolver` and `CustomAnnotationBasedMethodArgumentResolver` are left out. The first is one comparison against a fixed type name. The second wraps an annotation lookup.
- The element-resolver registry and its first-claim-wins ordering are left out. So are extension-point registration and ordering, and parameter resolution. None of their code is part of this model.
- Null elements are not modelled for `TestContainerResolver`. `willResolve(null, …)` returns false, because `instanceof` fails on null. `createUniqueId(null, …)` would fail with a null dereference at line 33, not a failed cast. Elements here are values that cannot be null.
- Object identity is not modelled: testables, classes and methods are compared by value. For classes this agrees with Java, where a class loader gives one `Class` object per name and `Class` compares by identity.
- Method equality is coarser than Java's: `Method.equals` compares the declaring class, name, parameter types and return type, but the model's `Method` has no declaring class and no return type. Two methods of different classes with the same name and parameter types are equal here and distinct in Java. The testables keep the class they were resolved against (`container`), so a method testable still tells such methods apart by that class.

=== FILE: outcomes.dfy ===
/**
 * Optional values and the failure outcomes of the discovery layer.
 *
 * The Java code signals failure by throwing; here each exception the code can
 * raise becomes a `Failure` value carried by `Result`.
 */
module Outcomes {

  /** A value that may be absent; `None` stands for Java's `null`. */
  datatype Option<+T> = None | Some(value: T)

  /** The exceptions the modelled code can raise. */
  datatype Failure =
    | PreconditionViolation(message: string)  // Preconditions.notNull / orElseThrow
    | NullPointer                             // a method called on a null reference
    | ClassCast                               // a cast to JUnit5Class that does not hold
    | IndexOutOfBounds                        // List.remove(0) on an empty list

  /** Either a value or the exception that was raised instead. */
  datatype Result<+T> = Ok(value: T) | Err(failure: Failure)
}

=== FILE: reflection.dfy ===
/**
 * The slice of Java reflection the discovery layer relies on, as a finite,
 * immutable class table.
 *
 * The annotation-based predicates (IsPotentialTestContainer,
 * IsNestedTestClass, IsTestMethod) are uninterpreted flags of the declared
 * elements; class loading and method finding are partial lookups.
 */
module Reflection {
  import opened Outcomes

  /**
   * A declared class. `name` is the binary name (`Class.getName()`, e.g.
   * `com.example.Outer$Inner`), `simpleName` is `Class.getSimpleName()`.
   * Nesting is finite because the enclosing class is a sub-value.
   */
  datatype Class = Class(
    name: string,
    simpleName: string,
    enclosing: Option<Class>,
    isPotentialTestContainer: bool,
    isNestedTestClass: bool)

  /** A declared method: its name, the names of its parameter types and the test marker. */
  datatype Method = Method(name: string, parameterTypes: seq<string>, isTestMethod: bool)

  /**
   * What the class loader and the method finder can see: classes by binary
   * name, and methods by (binary name of the class, method spec string).
   */
  datatype ClassTable = ClassTable(
    classes: map<string, Class>,
    methods: map<(string, string), Method>)

  /** `ReflectionUtils.loadClass`: the class of that name, if it can be loaded. */
  function LoadClass(table: ClassTable, name: string): (r: Option<Class>)
    ensures r.Some? <==> name in table.classes
    ensures r.Some? ==> r.value == table.classes[name]
  {
    if name in table.classes then Some(table.classes[name]) else None
  }

  /** `MethodFinder.findMethod`: the method of `clazz` that `spec` denotes, if any. */
  function FindMethod(table: ClassTable, spec: string, clazz: Class): (r: Option<Method>)
    ensures r.Some? <==> (clazz.name, spec) in table.methods
    ensures r.Some? ==> r.value == table.methods[(clazz.name, spec)]
  {
    if (clazz.name, spec) in table.methods then Some(table.methods[(clazz.name, spec)]) else None
  }

  /** `StringUtils.nullSafeToString(Class...)`: the type names separated by ", ". */
  function ParameterTypesToString(types: seq<string>): (s: string)
  {
    if |types| == 0 then ""
    else if |types| == 1 then types[0]
    else types[0] + ", " + ParameterTypesToString(types[1..])
  }

  /** The position of the first `ch` in `s`, or `|s|` when there is none. */
  function IndexOf(s: string, ch: char): (i: nat)
    ensures i <= |s|
    ensures i < |s| ==> s[i] == ch
    ensures forall j | 0 <= j < i :: s[j] != ch
  {
    if |s| == 0 then 0
    else if s[0] == ch then 0
    else 1 + IndexOf(s[1..], ch)
  }
}

=== FILE: test_container_resolver.dfy ===
/**
 * `TestContainerResolver`: the element resolver that claims top-level test
 * container classes during hierarchy expansion and mints their IDs below
 * the parent descriptor's ID.
 */
module TestContainerResolver {
  import opened Outcomes
  import opened UniqueIds
  import opened Reflection
  import TestableFactory

  /** The annotated elements a resolver is offered: classes, methods, and anything else. */
  datatype Element = ClassElement(clazz: Class) | MethodElement(javaMethod: Method) | OtherElement

  /** The descriptors a resolver sees as parent and produces as result. */
  datatype TestDescriptor =
    | EngineDescriptor(uniqueId: UniqueId)
    | ClassTestDescriptor(uniqueId: UniqueId, testClass: Class)

  /** `willResolve`: only classes, and among them exactly the potential test containers. */
  function WillResolve(element: Element, parent: TestDescriptor): (b: bool)
    ensures b ==> element.ClassElement?
    // it claims exactly what the factory classifies as a top-level class testable
    ensures element.ClassElement? ==>
      (b <==> (var t := TestableFactory.FromClass(element.clazz, parent.uniqueId);
               t.Ok? && t.value.JUnit5Class?))
  {
    if !element.ClassElement? then false
    else element.clazz.isPotentialTestContainer
  }

  /** `createUniqueId`: the parent's ID plus one `class` segment holding the binary name. */
  function CreateUniqueId(element: Element, parent: TestDescriptor): (r: Result<UniqueId>)
    ensures !element.ClassElement? ==> r == Err(ClassCast)
    ensures element.ClassElement? ==>
      && r.Ok?
      && |r.value| == |parent.uniqueId| + 1
      && r.value[..|parent.uniqueId|] == parent.uniqueId
      && r.value[|parent.uniqueId|] == Segment(TestableFactory.TypeClass, element.clazz.name)
  {
    match element
    case ClassElement(testClass) => Ok(Append(parent.uniqueId, "class", testClass.name))
    case _ => Err(ClassCast)
  }

  /** `resolve` / `resolveClass`: a class descriptor with exactly the given ID and class. */
  function Resolve(element: Element, parent: TestDescriptor, uniqueId: UniqueId): (r: Result<TestDescriptor>)
    ensures !element.ClassElement? ==> r == Err(ClassCast)
    ensures element.ClassElement? ==>
      r.Ok? && r.value.ClassTestDescriptor? &&
      r.value.uniqueId == uniqueId && r.value.testClass == element.clazz
  {
    match element
    case ClassElement(testClass) => ResolveClass(testClass, parent, uniqueId)
    case _ => Err(ClassCast)
  }

  /** `resolveClass`: the class descriptor carries the minted ID; the parent is not consulted. */
  function ResolveClass(testClass: Class, parent: TestDescriptor, uniqueId: UniqueId): (r: Result<TestDescriptor>)
    ensures r.Ok? && r.value.ClassTestDescriptor?
    ensures r.value.uniqueId == uniqueId && r.value.testClass == testClass
  {
    Ok(ClassTestDescriptor(uniqueId, testClass))
  }

  /** Whether the resolver claims an element does not depend on the parent. */
  lemma WillResolveIgnoresParent(element: Element, parent1: TestDescriptor, parent2: TestDescriptor)
    ensures WillResolve(element, parent1) == WillResolve(element, parent2)
  {
  }

  /** The descriptor does not depend on the parent either. */
  lemma ResolveIgnoresParent(element: Element, parent1: TestDescriptor, parent2: TestDescriptor, uniqueId: UniqueId)
    ensures Resolve(element, parent1, uniqueId) == Resolve(element, parent2, uniqueId)
  {
  }

  /**
   * Below the engine descriptor, the resolver mints the same ID for a
   * claimed class as `JUnit5TestableFactory.fromClass` does.
   */
  lemma MintedIdAgreesWithFactory(clazz: Class, engineId: UniqueId)
    requires WillResolve(ClassElement(clazz), EngineDescriptor(engineId))
    ensures CreateUniqueId(ClassElement(clazz), EngineDescriptor(engineId))
         == Ok(TestableFactory.FromClass(clazz, engineId).value.uniqueId)
  {
  }

  /**
   * An ID minted by the resolver below a one-segment engine ID resolves,
   * through the factory's reverse direction, to the claimed class with that
   * same ID, the ID the resolver's descriptor carries.
   */
  lemma MintedIdResolvesToClaimedClass(table: ClassTable, clazz: Class, engineId: UniqueId)
    requires |engineId| == 1
    requires clazz.name in table.classes && table.classes[clazz.name] == clazz
    requires WillResolve(ClassElement(clazz), EngineDescriptor(engineId))
    ensures var id := CreateUniqueId(ClassElement(clazz), EngineDescriptor(engineId)).value;
      && TestableFactory.FromUniqueId(table, id, engineId)
           == Ok(Some(TestableFactory.JUnit5Class(id, clazz)))
      && Resolve(ClassElement(clazz), EngineDescriptor(engineId), id)
           == Ok(ClassTestDescriptor(id, clazz))
  {
    var id := CreateUniqueId(ClassElement(clazz), EngineDescriptor(engineId)).value;
    MintedIdAgreesWithFactory(clazz, engineId);
    var seg := Segment(TestableFactory.TypeClass, clazz.name);
    var t := TestableFactory.JUnit5Class(id, clazz);
    assert id[1..] == [seg];
    assert TestableFactory.FromClass(clazz, engineId) == Ok(t);
    assert TestableFactory.Step(table, engineId, seg, None) == TestableFactory.Next(t);
    assert TestableFactory.CreateTestable(table, engineId, [seg], None)
        == TestableFactory.CreateTestable(table, engineId, [], Some(t));
  }
}

=== FILE: testable_factory.dfy ===
/**
 * `JUnit5TestableFactory`: turns declared classes and methods into testables
 * with unique IDs (forward), and unique IDs back into testables (reverse).
 */
module TestableFactory {
  import opened Outcomes
  import opened UniqueIds
  import opened Reflection

  /** The segment types the factory mints and understands. */
  const TypeClass: string := "class"
  const TypeNestedClass: string := "nested-class"
  const TypeMethod: string := "method"

  predicate IsKnownKind(kind: string)
  {
    kind == TypeClass || kind == TypeNestedClass || kind == TypeMethod
  }

  /**
   * The four shapes of `JUnit5Testable`. `DoNothing` is the shared sentinel
   * for "nothing to schedule"; it is taken to carry no ID. A nested class is
   * also a class testable: `JUnit5NestedClass` is taken to extend `JUnit5Class`.
   */
  datatype Testable =
    | JUnit5Class(uniqueId: UniqueId, javaClass: Class)
    | JUnit5NestedClass(uniqueId: UniqueId, javaClass: Class, container: Class)
    | JUnit5Method(uniqueId: UniqueId, javaMethod: Method, container: Class)
    | DoNothing
  {
    /** The testables a cast to `JUnit5Class` accepts. */
    predicate IsClassTestable()
    {
      JUnit5Class? || JUnit5NestedClass?
    }
  }

  /**
   * The shape of every class ID: the engine ID, one `class` segment, then
   * only `nested-class` segments.
   */
  ghost predicate IsClassId(id: UniqueId, engineId: UniqueId)
  {
    && StrictlyBelow(id, engineId)
    && id[|engineId|].kind == TypeClass
    && forall i | |engineId| < i < |id| :: id[i].kind == TypeNestedClass
  }

  // ---------------------------------------------------------------------
  // Forward: declared element -> testable
  // ---------------------------------------------------------------------

  /**
   * `fromClass`: a potential test container is a top-level class testable;
   * otherwise a nested test class is resolved below its enclosing class;
   * anything else is `DoNothing`.
   */
  function FromClass(clazz: Class, engineId: UniqueId): (r: Result<Testable>)
    decreases clazz, 1
    // the container check wins, and mints exactly one `class` segment
    ensures clazz.isPotentialTestContainer ==>
      && r.Ok? && r.value.JUnit5Class?
      && r.value.javaClass == clazz
      && |r.value.uniqueId| == |engineId| + 1
      && r.value.uniqueId[..|engineId|] == engineId
      && r.value.uniqueId[|engineId|] == Segment(TypeClass, clazz.name)
    // a nested testable extends the ID of its enclosing class by one segment
    ensures r.Ok? && r.value.JUnit5NestedClass? ==>
      && !clazz.isPotentialTestContainer && clazz.isNestedTestClass
      && clazz.enclosing == Some(r.value.container)
      && r.value.javaClass == clazz
      && FromClass(r.value.container, engineId).Ok?
      && FromClass(r.value.container, engineId).value.IsClassTestable()
      && r.value.uniqueId ==
           FromClass(r.value.container, engineId).value.uniqueId
             + [Segment(TypeNestedClass, clazz.simpleName)]
    // a nested test class resolves whenever its enclosing class resolves to a class testable
    ensures (&& !clazz.isPotentialTestContainer && clazz.isNestedTestClass
             && clazz.enclosing.Some?
             && FromClass(clazz.enclosing.value, engineId).Ok?
             && FromClass(clazz.enclosing.value, engineId).value.IsClassTestable()) ==>
      r.Ok? && r.value.JUnit5NestedClass?
    // and otherwise it fails, passing on the enclosing class's failure
    ensures (&& !clazz.isPotentialTestContainer && clazz.isNestedTestClass
             && clazz.enclosing.Some?
             && FromClass(clazz.enclosing.value, engineId).Err?) ==>
      r == Err(FromClass(clazz.enclosing.value, engineId).failure)
    // a nested test class without a resolvable enclosing class fails; it is never promoted
    ensures (!clazz.isPotentialTestContainer && clazz.isNestedTestClass && clazz.enclosing.None?) ==>
      r == Err(PreconditionViolation("Class must not be null"))
    ensures (&& !clazz.isPotentialTestContainer && clazz.isNestedTestClass
             && clazz.enclosing.Some?
             && FromClass(clazz.enclosing.value, engineId) == Ok(DoNothing)) ==>
      r == Err(NullPointer)
    ensures r.Ok? && r.value.JUnit5Class? ==> clazz.isPotentialTestContainer
    ensures r == Ok(DoNothing) <==> !clazz.isPotentialTestContainer && !clazz.isNestedTestClass
    ensures r.Err? ==> !clazz.isPotentialTestContainer && clazz.isNestedTestClass
    ensures r.Ok? ==> !r.value.JUnit5Method?
    ensures r.Ok? && !r.value.DoNothing? ==>
      r.value.javaClass == clazz && IsClassId(r.value.uniqueId, engineId)
  {
    if clazz.isPotentialTestContainer then
      Ok(JUnit5Class(Append(engineId, TypeClass, clazz.name), clazz))
    else if clazz.isNestedTestClass then
      CreateNestedClassTestable(clazz, clazz.enclosing, engineId)
    else
      Ok(DoNothing)
  }

  /**
   * `createNestedClassTestable`: resolve the enclosing class first, then
   * append a `nested-class` segment with the simple name. A missing enclosing
   * class fails `fromClass`'s null check; an enclosing class that resolves
   * to `DoNothing` has no ID to append to.
   */
  function CreateNestedClassTestable(testClass: Class, container: Option<Class>, engineId: UniqueId)
    : (r: Result<Testable>)
    requires container == testClass.enclosing
    decreases testClass, 0
    ensures r.Ok? ==>
      && container.Some?
      && r.value.JUnit5NestedClass?
      && r.value.javaClass == testClass
      && r.value.container == container.value
      && FromClass(container.value, engineId).Ok?
      && FromClass(container.value, engineId).value.IsClassTestable()
      && r.value.uniqueId ==
           FromClass(container.value, engineId).value.uniqueId
             + [Segment(TypeNestedClass, testClass.simpleName)]
    ensures (container.Some? && FromClass(container.value, engineId).Ok? &&
             FromClass(container.value, engineId).value.IsClassTestable()) ==> r.Ok?
    ensures container.None? ==> r == Err(PreconditionViolation("Class must not be null"))
    ensures container.Some? && FromClass(container.value, engineId).Err? ==>
      r == Err(FromClass(container.value, engineId).failure)
    ensures container.Some? && FromClass(container.value, engineId) == Ok(DoNothing) ==>
      r == Err(NullPointer)
    ensures r.Ok? ==> IsClassId(r.value.uniqueId, engineId)
  {
    match container
    case None => Err(PreconditionViolation("Class must not be null"))
    case Some(enclosing) =>
      var parent := FromClass(enclosing, engineId);
      if parent.Err? then Err(parent.failure)
      else if parent.value.DoNothing? then Err(NullPointer)
      else
        var id := Append(parent.value.uniqueId, TypeNestedClass, testClass.simpleName);
        assert id[|engineId|] == parent.value.uniqueId[|engineId|];
        Ok(JUnit5NestedClass(id, testClass, enclosing))
  }

  /** The method segment's value: the name followed by the parenthesised parameter types. */
  function MethodId(m: Method): (spec: string)
    ensures |spec| == |m.name| + |ParameterTypesToString(m.parameterTypes)| + 2
    ensures spec[..|m.name|] == m.name
    ensures spec[|m.name|] == '(' && spec[|spec| - 1] == ')'
    ensures spec[|m.name| + 1..|spec| - 1] == ParameterTypesToString(m.parameterTypes)
  {
    m.name + "(" + ParameterTypesToString(m.parameterTypes) + ")"
  }

  /**
   * `fromMethod`: a test method of `clazz` gets the ID of `clazz` plus one
   * `method` segment; any other method is `DoNothing`.
   */
  function FromMethod(testMethod: Method, clazz: Class, engineId: UniqueId): (r: Result<Testable>)
    ensures !testMethod.isTestMethod ==> r == Ok(DoNothing)
    ensures testMethod.isTestMethod ==>
      (r.Ok? <==> FromClass(clazz, engineId).Ok? && !FromClass(clazz, engineId).value.DoNothing?)
    ensures testMethod.isTestMethod && r.Ok? ==> r.value.JUnit5Method?
    ensures testMethod.isTestMethod && FromClass(clazz, engineId).Err? ==>
      r == Err(FromClass(clazz, engineId).failure)
    ensures testMethod.isTestMethod && FromClass(clazz, engineId) == Ok(DoNothing) ==>
      r == Err(NullPointer)
    ensures r.Ok? && !r.value.DoNothing? ==>
      && testMethod.isTestMethod
      && r.value == JUnit5Method(r.value.uniqueId, testMethod, clazz)
      && r.value.uniqueId ==
           FromClass(clazz, engineId).value.uniqueId + [Segment(TypeMethod, MethodId(testMethod))]
      && StrictlyBelow(r.value.uniqueId, engineId)
  {
    if !testMethod.isTestMethod then Ok(DoNothing)
    else
      var owner := FromClass(clazz, engineId);
      if owner.Err? then Err(owner.failure)
      else if owner.value.DoNothing? then Err(NullPointer)
      else Ok(JUnit5Method(Append(owner.value.uniqueId, TypeMethod, MethodId(testMethod)), testMethod, clazz))
  }

  // ---------------------------------------------------------------------
  // Lookups
  // ---------------------------------------------------------------------

  /** `loadClassByName`: a class that cannot be loaded violates a precondition. */
  function LoadClassByName(table: ClassTable, className: string): (r: Result<Class>)
    ensures r.Ok? <==> className in table.classes
    ensures r.Ok? ==> r.value == table.classes[className]
    ensures r.Err? ==> r.failure == PreconditionViolation("Cannot load class '" + className + "'")
  {
    match LoadClass(table, className)
    case Some(c) => Ok(c)
    case None => Err(PreconditionViolation("Cannot load class '" + className + "'"))
  }

  /** `classByName`: as `loadClassByName`, with its own message. */
  function ClassByName(table: ClassTable, className: string): (r: Result<Class>)
    ensures r.Ok? <==> className in table.classes
    ensures r.Ok? ==> r.value == table.classes[className]
    ensures r.Err? ==> r.failure == PreconditionViolation("Cannot resolve class name '" + className + "'")
  {
    match LoadClass(table, className)
    case Some(c) => Ok(c)
    case None => Err(PreconditionViolation("Cannot resolve class name '" + className + "'"))
  }

  /** `findTopLevelClass`: a `class` segment's value is the binary name itself. */
  function FindTopLevelClass(table: ClassTable, classNamePart: string): (r: Result<Class>)
    ensures r.Ok? <==> classNamePart in table.classes
    ensures r.Ok? ==> r.value == table.classes[classNamePart]
  {
    LoadClassByName(table, classNamePart)
  }

  /** `findNestedClass`: a `nested-class` value names the class `<container>$<value>`. */
  function FindNestedClass(table: ClassTable, nameExtension: string, containerClass: Class): (r: Result<Class>)
    ensures r.Ok? <==> containerClass.name + "$" + nameExtension in table.classes
    ensures r.Ok? ==> r.value == table.classes[containerClass.name + "$" + nameExtension]
    ensures r.Err? ==>
      r.failure == PreconditionViolation("Cannot resolve class name '" + containerClass.name + "$" + nameExtension + "'")
  {
    ClassByName(table, containerClass.name + "$" + nameExtension)
  }

  /** `((JUnit5Class) last).getJavaClass()`: null and non-class testables fail. */
  function ContainerOf(last: Option<Testable>): (r: Result<Class>)
    ensures r.Ok? <==> last.Some? && last.value.IsClassTestable()
    ensures r.Ok? ==> r.value == last.value.javaClass
    ensures last.None? ==> r == Err(NullPointer)
    ensures last.Some? && !last.value.IsClassTestable() ==> r == Err(ClassCast)
  {
    match last
    case None => Err(NullPointer)
    case Some(t) => if t.IsClassTestable() then Ok(t.javaClass) else Err(ClassCast)
  }

  // ---------------------------------------------------------------------
  // Reverse: unique ID -> testable
  // ---------------------------------------------------------------------

  /**
   * What one segment of the fold does: continue with the next testable,
   * stop the fold with `DoNothing`, or abort with an exception.
   */
  datatype StepOutcome = Next(next: Testable) | Stop | Abort(failure: Failure)

  /** One iteration of `createTestable`'s switch on the segment type. */
  function Step(table: ClassTable, engineId: UniqueId, head: Segment, last: Option<Testable>): (r: StepOutcome)
    // the fold stops early exactly for an unknown type or a method that cannot be found
    ensures r.Stop? <==>
      || !IsKnownKind(head.kind)
      || (&& head.kind == TypeMethod
          && last.Some? && last.value.IsClassTestable()
          && (last.value.javaClass.name, head.value) !in table.methods)
    // nested-class and method segments need a class testable before them
    ensures ((head.kind == TypeNestedClass || head.kind == TypeMethod) &&
             !(last.Some? && last.value.IsClassTestable())) ==> r.Abort?
    ensures head.kind == TypeClass && head.value !in table.classes ==>
      r == Abort(PreconditionViolation("Cannot load class '" + head.value + "'"))
    // a loadable `class` segment continues with the forward classification of that class
    ensures (head.kind == TypeClass && head.value in table.classes) ==>
      var f := FromClass(table.classes[head.value], engineId);
      r == (if f.Ok? then Next(f.value) else Abort(f.failure))
    // a `nested-class` segment loads `<container>$<value>` and classifies it forward
    ensures (&& head.kind == TypeNestedClass
             && last.Some? && last.value.IsClassTestable()) ==>
      var name := last.value.javaClass.name + "$" + head.value;
      if name in table.classes then
        var f := FromClass(table.classes[name], engineId);
        r == (if f.Ok? then Next(f.value) else Abort(f.failure))
      else
        r == Abort(PreconditionViolation("Cannot resolve class name '" + name + "'"))
    // a found `method` segment continues with the forward classification of that method
    ensures (&& head.kind == TypeMethod
             && last.Some? && last.value.IsClassTestable()
             && (last.value.javaClass.name, head.value) in table.methods) ==>
      var f := FromMethod(table.methods[(last.value.javaClass.name, head.value)], last.value.javaClass, engineId);
      r == (if f.Ok? then Next(f.value) else Abort(f.failure))
    ensures r.Next? && head.kind == TypeMethod ==> r.next.DoNothing? || r.next.JUnit5Method?
    ensures r.Next? && head.kind != TypeMethod ==> !r.next.JUnit5Method?
    ensures r.Next? && !r.next.DoNothing? ==> StrictlyBelow(r.next.uniqueId, engineId)
  {
    if head.kind == TypeClass then
      match FindTopLevelClass(table, head.value)
      case Err(f) => Abort(f)
      case Ok(c) =>
        match FromClass(c, engineId)
        case Err(f) => Abort(f)
        case Ok(next) => Next(next)
    else if head.kind == TypeNestedClass then
      match ContainerOf(last)
      case Err(f) => Abort(f)
      case Ok(container) =>
        match FindNestedClass(table, head.value, container)
        case Err(f) => Abort(f)
        case Ok(c) =>
          match FromClass(c, engineId)
          case Err(f) => Abort(f)
          case Ok(next) => Next(next)
    else if head.kind == TypeMethod then
      match ContainerOf(last)
      case Err(f) => Abort(f)
      case Ok(container) =>
        match FindMethod(table, head.value, container)
        case None => Stop
        case Some(m) =>
          match FromMethod(m, container, engineId)
          case Err(f) => Abort(f)
          case Ok(next) => Next(next)
    else
      Stop
  }

  /**
   * `createTestable`: fold the segments left to right, carrying the last
   * resolved testable (`None` is the initial null).
   */
  function CreateTestable(table: ClassTable, engineId: UniqueId, parts: seq<Segment>, last: Option<Testable>)
    : (r: Result<Option<Testable>>)
    decreases |parts|
    // a null result only comes from folding nothing onto a null start
    ensures r.Ok? && r.value.None? ==> |parts| == 0 && last.None?
    // whatever the fold resolves after at least one segment lies below the engine
    ensures |parts| > 0 && r.Ok? && r.value.Some? && !r.value.value.DoNothing? ==>
      StrictlyBelow(r.value.value.uniqueId, engineId)
    ensures |parts| > 0 && r.Ok? && r.value.Some? && r.value.value.JUnit5Method? ==>
      exists i | 0 <= i < |parts| :: parts[i].kind == TypeMethod
  {
    if |parts| == 0 then Ok(last)
    else
      match Step(table, engineId, parts[0], last)
      case Next(next) =>
        var r := CreateTestable(table, engineId, parts[1..], Some(next));
        assert r.Ok? && r.value.Some? && r.value.value.JUnit5Method? && |parts| > 1 ==>
          exists i | 0 <= i < |parts[1..]| :: parts[1..][i].kind == TypeMethod;
        r
      case Stop => Ok(Some(DoNothing))
      case Abort(f) => Err(f)
  }

  /**
   * `fromUniqueId`: drop the first (engine) segment and fold the rest.
   * An empty ID has no segment to drop.
   */
  function FromUniqueId(table: ClassTable, uniqueId: UniqueId, engineId: UniqueId)
    : (r: Result<Option<Testable>>)
    ensures |uniqueId| == 0 ==> r == Err(IndexOutOfBounds)
    ensures r == Ok(None) <==> |uniqueId| == 1
    ensures r.Ok? && r.value.Some? && !r.value.value.DoNothing? ==>
      StrictlyBelow(r.value.value.uniqueId, engineId)
  {
    if |uniqueId| == 0 then Err(IndexOutOfBounds)
    else CreateTestable(table, engineId, uniqueId[1..], None)
  }
}

=== FILE: testable_factory_properties.dfy ===
/**
 * Properties of `JUnit5TestableFactory`: the shape of minted IDs, the
 * early-exit and error behaviour of the reverse fold, and the round trip
 * from a declared class or method to its ID and back.
 */
module TestableFactoryProperties {
  import opened Outcomes
  import opened UniqueIds
  import opened Reflection
  import opened TestableFactory

  // ---------------------------------------------------------------------
  // Shape of minted IDs
  // ---------------------------------------------------------------------

  /**
   * How many `nested-class` hops separate a class from the potential test
   * container its ID is rooted at.
   */
  function NestingDepth(clazz: Class): (d: nat)
    decreases clazz
  {
    if clazz.isPotentialTestContainer then 0
    else match clazz.enclosing
      case None => 0
      case Some(e) => 1 + NestingDepth(e)
  }

  /** A class ID holds the engine ID, one `class` segment and one segment per nesting level. */
  lemma {:induction false} ClassIdLength(clazz: Class, engineId: UniqueId)
    requires FromClass(clazz, engineId).Ok? && !FromClass(clazz, engineId).value.DoNothing?
    ensures |FromClass(clazz, engineId).value.uniqueId| == |engineId| + 1 + NestingDepth(clazz)
    decreases clazz
  {
    if !clazz.isPotentialTestContainer {
      ClassIdLength(clazz.enclosing.value, engineId);
    }
  }

  /** With the usual one-segment engine ID, a class ID is two segments longer than the nesting depth. */
  lemma ClassIdLengthForEngineRoot(clazz: Class, engineId: UniqueId)
    requires |engineId| == 1
    requires FromClass(clazz, engineId).Ok? && !FromClass(clazz, engineId).value.DoNothing?
    ensures |FromClass(clazz, engineId).value.uniqueId| == NestingDepth(clazz) + 2
  {
    ClassIdLength(clazz, engineId);
  }

  /** A class that is both a potential container and a nested test class is classified top-level. */
  lemma ContainerCheckTakesPrecedence(clazz: Class, engineId: UniqueId)
    requires clazz.isPotentialTestContainer && clazz.isNestedTestClass
    ensures FromClass(clazz, engineId) == Ok(JUnit5Class(engineId + [Segment(TypeClass, clazz.name)], clazz))
  {
  }

  // ---------------------------------------------------------------------
  // Method IDs distinguish overloads
  // ---------------------------------------------------------------------

  /** A parameter type name as `Class.getName()` renders it: non-empty, without commas. */
  predicate WellFormedTypeName(t: string)
  {
    |t| > 0 && ',' !in t
  }

  predicate WellFormedTypeNames(types: seq<string>)
  {
    forall i | 0 <= i < |types| :: WellFormedTypeName(types[i])
  }

  /** A method name, as a Java identifier, holds no parenthesis. */
  predicate WellFormedMethod(m: Method)
  {
    '(' !in m.name && WellFormedTypeNames(m.parameterTypes)
  }

  /** Where the first type name ends in the rendering, and what follows it. */
  lemma ParameterTypesToStringSplit(types: seq<string>)
    requires |types| > 0 && WellFormedTypeNames(types)
    ensures |types| == 1 ==>
      ParameterTypesToString(types) == types[0] &&
      IndexOf(ParameterTypesToString(types), ',') == |types[0]|
    ensures |types| > 1 ==>
      && IndexOf(ParameterTypesToString(types), ',') == |types[0]|
      && |types[0]| + 2 <= |ParameterTypesToString(types)|
      && ParameterTypesToString(types)[..|types[0]|] == types[0]
      && ParameterTypesToString(types)[|types[0]| + 2..] == ParameterTypesToString(types[1..])
  {
    var s := ParameterTypesToString(types);
    assert WellFormedTypeName(types[0]);
    if |types| > 1 {
      assert s == types[0] + ", " + ParameterTypesToString(types[1..]);
      assert s[|types[0]|] == ',';
    }
  }

  /** Rendering well-formed parameter type names loses nothing. */
  lemma {:induction false} ParameterTypesToStringInjective(a: seq<string>, b: seq<string>)
    requires WellFormedTypeNames(a) && WellFormedTypeNames(b)
    requires ParameterTypesToString(a) == ParameterTypesToString(b)
    ensures a == b
    decreases |a|
  {
    if |a| > 0 {
      assert WellFormedTypeName(a[0]);
      assert |ParameterTypesToString(a)| > 0;
      assert |b| > 0;
      ParameterTypesToStringSplit(a);
      ParameterTypesToStringSplit(b);
      assert |a[0]| == |b[0]|;
      if |a| == 1 {
        assert |b| == 1;
      } else {
        assert |b| > 1;
        assert a[0] == b[0];
        ParameterTypesToStringInjective(a[1..], b[1..]);
        assert a == [a[0]] + a[1..];
        assert b == [b[0]] + b[1..];
      }
    } else {
      assert |b| > 0 ==> WellFormedTypeName(b[0]) && |ParameterTypesToString(b)| > 0;
    }
  }

  /** Two well-formed methods get the same method segment only if name and parameter types agree. */
  lemma MethodIdInjective(m1: Method, m2: Method)
    requires WellFormedMethod(m1) && WellFormedMethod(m2)
    requires MethodId(m1) == MethodId(m2)
    ensures m1.name == m2.name && m1.parameterTypes == m2.parameterTypes
  {
    var s := MethodId(m1);
    var i := IndexOf(s, '(');
    assert s[|m1.name|] == '(' && s[|m2.name|] == '(';
    assert forall j | 0 <= j < |m1.name| :: s[j] == m1.name[j];
    assert forall j | 0 <= j < |m2.name| :: s[j] == m2.name[j];
    assert i == |m1.name| && i == |m2.name|;
    assert m1.name == s[..i] == m2.name;
    var p1, p2 := ParameterTypesToString(m1.parameterTypes), ParameterTypesToString(m2.parameterTypes);
    assert s == m1.name + "(" + p1 + ")";
    assert s == m2.name + "(" + p2 + ")";
    assert p1 == s[i + 1..|s| - 1] == p2;
    ParameterTypesToStringInjective(m1.parameterTypes, m2.parameterTypes);
  }

  /** Overloaded test methods of one class get distinct IDs. */
  lemma OverloadsGetDistinctIds(m1: Method, m2: Method, clazz: Class, engineId: UniqueId)
    requires WellFormedMethod(m1) && WellFormedMethod(m2)
    requires m1.isTestMethod && m2.isTestMethod
    requires m1.parameterTypes != m2.parameterTypes
    requires FromMethod(m1, clazz, engineId).Ok? && FromMethod(m2, clazz, engineId).Ok?
    ensures FromMethod(m1, clazz, engineId).value.uniqueId != FromMethod(m2, clazz, engineId).value.uniqueId
  {
    var id1, id2 := FromMethod(m1, clazz, engineId).value.uniqueId, FromMethod(m2, clazz, engineId).value.uniqueId;
    if id1 == id2 {
      assert id1[|id1| - 1] == Segment(TypeMethod, MethodId(m1));
      assert id2[|id2| - 1] == Segment(TypeMethod, MethodId(m2));
      MethodIdInjective(m1, m2);
    }
  }

  // ---------------------------------------------------------------------
  // The reverse fold
  // ---------------------------------------------------------------------

  /** The fold over no segments hands back its accumulator. */
  lemma FoldOfNothing(table: ClassTable, engineId: UniqueId, last: Option<Testable>)
    ensures CreateTestable(table, engineId, [], last) == Ok(last)
  {
  }

  /**
   * A fold that ends on a real testable consumed every segment, so folding
   * more segments continues from that testable.
   */
  lemma {:induction false} FoldAppend(
    table: ClassTable, engineId: UniqueId, xs: seq<Segment>, ys: seq<Segment>, last: Option<Testable>)
    requires CreateTestable(table, engineId, xs, last).Ok?
    requires CreateTestable(table, engineId, xs, last).value.Some?
    requires !CreateTestable(table, engineId, xs, last).value.value.DoNothing?
    ensures CreateTestable(table, engineId, xs + ys, last)
         == CreateTestable(table, engineId, ys, CreateTestable(table, engineId, xs, last).value)
    decreases |xs|
  {
    if |xs| == 0 {
      assert xs + ys == ys;
    } else {
      assert (xs + ys)[0] == xs[0];
      assert (xs + ys)[1..] == xs[1..] + ys;
      var step := Step(table, engineId, xs[0], last);
      if step.Next? {
        FoldAppend(table, engineId, xs[1..], ys, Some(step.next));
      }
    }
  }

  /** Once the fold aborts, later segments change nothing. */
  lemma {:induction false} ErrorIgnoresRest(
    table: ClassTable, engineId: UniqueId, xs: seq<Segment>, ys: seq<Segment>, last: Option<Testable>)
    requires CreateTestable(table, engineId, xs, last).Err?
    ensures CreateTestable(table, engineId, xs + ys, last) == CreateTestable(table, engineId, xs, last)
    decreases |xs|
  {
    assert |xs| > 0;
    assert (xs + ys)[0] == xs[0];
    assert (xs + ys)[1..] == xs[1..] + ys;
    var step := Step(table, engineId, xs[0], last);
    if step.Next? {
      ErrorIgnoresRest(table, engineId, xs[1..], ys, Some(step.next));
    }
  }

  /**
   * A segment of unknown type stops the fold with `DoNothing`; whatever
   * follows it is never looked at. Only a failure before it wins.
   */
  lemma {:induction false} UnknownSegmentIgnoresRest(
    table: ClassTable, engineId: UniqueId, xs: seq<Segment>, unknown: Segment,
    ys: seq<Segment>, zs: seq<Segment>, last: Option<Testable>)
    requires !IsKnownKind(unknown.kind)
    ensures CreateTestable(table, engineId, xs + [unknown] + ys, last)
         == CreateTestable(table, engineId, xs + [unknown] + zs, last)
    ensures CreateTestable(table, engineId, xs, last).Ok? ==>
      CreateTestable(table, engineId, xs + [unknown] + ys, last) == Ok(Some(DoNothing))
    ensures CreateTestable(table, engineId, xs, last).Err? ==>
      CreateTestable(table, engineId, xs + [unknown] + ys, last) == CreateTestable(table, engineId, xs, last)
    decreases |xs|
  {
    if |xs| == 0 {
      assert xs + [unknown] + ys == [unknown] + ys;
      assert xs + [unknown] + zs == [unknown] + zs;
      assert Step(table, engineId, unknown, last).Stop?;
    } else {
      assert (xs + [unknown] + ys)[0] == xs[0] == (xs + [unknown] + zs)[0];
      assert (xs + [unknown] + ys)[1..] == xs[1..] + [unknown] + ys;
      assert (xs + [unknown] + zs)[1..] == xs[1..] + [unknown] + zs;
      var step := Step(table, engineId, xs[0], last);
      if step.Next? {
        UnknownSegmentIgnoresRest(table, engineId, xs[1..], unknown, ys, zs, Some(step.next));
      }
    }
  }

  /** A `class` segment does not look at the accumulator. */
  lemma ClassSegmentIgnoresAccumulator(
    table: ClassTable, engineId: UniqueId, head: Segment, rest: seq<Segment>,
    last1: Option<Testable>, last2: Option<Testable>)
    requires head.kind == TypeClass
    ensures CreateTestable(table, engineId, [head] + rest, last1)
         == CreateTestable(table, engineId, [head] + rest, last2)
  {
  }

  /** A `nested-class` or `method` segment after null or a non-class testable is a failed cast. */
  lemma ContainerSegmentNeedsClassTestable(
    table: ClassTable, engineId: UniqueId, head: Segment, rest: seq<Segment>, last: Option<Testable>)
    requires head.kind == TypeNestedClass || head.kind == TypeMethod
    ensures CreateTestable(table, engineId, [head] + rest, last).Ok? ==>
      last.Some? && last.value.IsClassTestable()
    ensures last.None? ==> CreateTestable(table, engineId, [head] + rest, last) == Err(NullPointer)
    ensures last.Some? && !last.value.IsClassTestable() ==>
      CreateTestable(table, engineId, [head] + rest, last) == Err(ClassCast)
  {
  }

  /** The engine segment itself is never interpreted: any first segment will do. */
  lemma EngineSegmentIsIgnored(table: ClassTable, s1: Segment, s2: Segment, rest: UniqueId, engineId: UniqueId)
    ensures FromUniqueId(table, [s1] + rest, engineId) == FromUniqueId(table, [s2] + rest, engineId)
  {
  }

  // ---------------------------------------------------------------------
  // Round trip
  // ---------------------------------------------------------------------

  /**
   * Class lookup inverts the name renderings for `clazz` and the classes
   * enclosing it: each loads under its binary name, and a nested test class
   * is named `<enclosing>$<simple name>`.
   */
  ghost predicate ResolvableByName(table: ClassTable, clazz: Class)
    decreases clazz
  {
    && clazz.name in table.classes
    && table.classes[clazz.name] == clazz
    && match clazz.enclosing
       case None => true
       case Some(e) =>
         && ResolvableByName(table, e)
         && (clazz.isNestedTestClass && !clazz.isPotentialTestContainer ==>
               clazz.name == e.name + "$" + clazz.simpleName)
  }

  /** Folding the segments a class ID adds below the engine gives the class testable back. */
  lemma {:induction false} ClassIdFoldsBack(table: ClassTable, clazz: Class, engineId: UniqueId)
    requires ResolvableByName(table, clazz)
    requires FromClass(clazz, engineId).Ok? && !FromClass(clazz, engineId).value.DoNothing?
    ensures CreateTestable(table, engineId, FromClass(clazz, engineId).value.uniqueId[|engineId|..], None)
         == Ok(Some(FromClass(clazz, engineId).value))
    decreases clazz
  {
    var t := FromClass(clazz, engineId).value;
    if clazz.isPotentialTestContainer {
      assert t.uniqueId[|engineId|..] == [Segment(TypeClass, clazz.name)];
      assert Step(table, engineId, Segment(TypeClass, clazz.name), None) == Next(t);
    } else {
      var e := clazz.enclosing.value;
      var p := FromClass(e, engineId).value;
      var seg := Segment(TypeNestedClass, clazz.simpleName);
      ClassIdFoldsBack(table, e, engineId);
      assert t.uniqueId[|engineId|..] == p.uniqueId[|engineId|..] + [seg];
      FoldAppend(table, engineId, p.uniqueId[|engineId|..], [seg], None);
      assert Step(table, engineId, seg, Some(p)) == Next(t);
    }
  }

  /**
   * Round trip for classes: with a one-segment engine ID and name lookups
   * that invert the renderings, resolving a class's ID yields the very same
   * testable, with the same ID and the same class.
   */
  lemma ClassRoundTrip(table: ClassTable, clazz: Class, engineId: UniqueId)
    requires |engineId| == 1
    requires ResolvableByName(table, clazz)
    requires FromClass(clazz, engineId).Ok? && !FromClass(clazz, engineId).value.DoNothing?
    ensures FromUniqueId(table, FromClass(clazz, engineId).value.uniqueId, engineId)
         == Ok(Some(FromClass(clazz, engineId).value))
  {
    ClassIdFoldsBack(table, clazz, engineId);
  }

  /**
   * Round trip for methods: if in addition the method finder maps the
   * method's spec back to the method, resolving a test method's ID yields
   * the same testable.
   */
  lemma MethodRoundTrip(table: ClassTable, m: Method, clazz: Class, engineId: UniqueId)
    requires |engineId| == 1
    requires ResolvableByName(table, clazz)
    requires (clazz.name, MethodId(m)) in table.methods && table.methods[(clazz.name, MethodId(m))] == m
    requires FromMethod(m, clazz, engineId).Ok? && !FromMethod(m, clazz, engineId).value.DoNothing?
    ensures FromUniqueId(table, FromMethod(m, clazz, engineId).value.uniqueId, engineId)
         == Ok(Some(FromMethod(m, clazz, engineId).value))
  {
    var t := FromMethod(m, clazz, engineId).value;
    var p := FromClass(clazz, engineId).value;
    var seg := Segment(TypeMethod, MethodId(m));
    ClassIdFoldsBack(table, clazz, engineId);
    assert t.uniqueId[1..] == p.uniqueId[1..] + [seg];
    FoldAppend(table, engineId, p.uniqueId[1..], [seg], None);
    assert Step(table, engineId, seg, Some(p)) == Next(t);
  }

  /**
   * Only one segment is dropped: with a longer engine ID whose second
   * segment has a type the fold does not know, every class ID resolves to
   * `DoNothing` instead of the class.
   */
  lemma LongerEngineIdDefeatsRoundTrip(table: ClassTable, clazz: Class, engineId: UniqueId)
    requires |engineId| >= 2 && !IsKnownKind(engineId[1].kind)
    requires FromClass(clazz, engineId).Ok? && !FromClass(clazz, engineId).value.DoNothing?
    ensures FromUniqueId(table, FromClass(clazz, engineId).value.uniqueId, engineId) == Ok(Some(DoNothing))
  {
  }

  /** An ID naming a method its class no longer has resolves to `DoNothing`, whatever follows. */
  lemma {:induction false} StaleMethodIdResolvesToDoNothing(
    table: ClassTable, clazz: Class, engineId: UniqueId, spec: string, rest: seq<Segment>)
    requires |engineId| == 1
    requires ResolvableByName(table, clazz)
    requires FromClass(clazz, engineId).Ok? && !FromClass(clazz, engineId).value.DoNothing?
    requires (clazz.name, spec) !in table.methods
    ensures FromUniqueId(table, FromClass(clazz, engineId).value.uniqueId + [Segment(TypeMethod, spec)] + rest, engineId)
         == Ok(Some(DoNothing))
  {
    var p := FromClass(clazz, engineId).value;
    var head := Segment(TypeMethod, spec);
    var tail := [head] + rest;
    var id := p.uniqueId + [head] + rest;
    ClassIdFoldsBack(table, clazz, engineId);
    assert id[1..] == p.uniqueId[1..] + tail;
    FoldAppend(table, engineId, p.uniqueId[1..], tail, None);
    assert Step(table, engineId, head, Some(p)) == Stop;
    assert CreateTestable(table, engineId, tail, Some(p)) == Ok(Some(DoNothing));
  }

  /** An ID naming a nested class that cannot be loaded is an error, not `DoNothing`. */
  lemma {:induction false} MissingNestedClassIsError(
    table: ClassTable, clazz: Class, engineId: UniqueId, simpleName: string, rest: seq<Segment>)
    requires |engineId| == 1
    requires ResolvableByName(table, clazz)
    requires FromClass(clazz, engineId).Ok? && !FromClass(clazz, engineId).value.DoNothing?
    requires clazz.name + "$" + simpleName !in table.classes
    ensures FromUniqueId(table, FromClass(clazz, engineId).value.uniqueId + [Segment(TypeNestedClass, simpleName)] + rest, engineId)
         == Err(PreconditionViolation("Cannot resolve class name '" + clazz.name + "$" + simpleName + "'"))
  {
    var p := FromClass(clazz, engineId).value;
    var head := Segment(TypeNestedClass, simpleName);
    var tail := [head] + rest;
    var id := p.uniqueId + [head] + rest;
    ClassIdFoldsBack(table, clazz, engineId);
    assert id[1..] == p.uniqueId[1..] + tail;
    FoldAppend(table, engineId, p.uniqueId[1..], tail, None);
    assert FromUniqueId(table, id, engineId) == CreateTestable(table, engineId, tail, Some(p));
    NestedLookupFailure(table, engineId, p, clazz, simpleName, rest);
  }

  /** The step behind `MissingNestedClassIsError`, starting from the resolved container. */
  lemma NestedLookupFailure(
    table: ClassTable, engineId: UniqueId, container: Testable, clazz: Class, simpleName: string, rest: seq<Segment>)
    requires container.IsClassTestable() && container.javaClass == clazz
    requires clazz.name + "$" + simpleName !in table.classes
    ensures CreateTestable(table, engineId, [Segment(TypeNestedClass, simpleName)] + rest, Some(container))
         == Err(PreconditionViolation("Cannot resolve class name '" + clazz.name + "$" + simpleName + "'"))
  {
  }

  /**
   * A `class` segment naming a loadable class that is neither a potential
   * test container nor a nested test class resolves to `DoNothing` rather
   * than failing; a `nested-class` or `method` segment after it then fails
   * the cast to `JUnit5Class`.
   */
  lemma {:induction false} NonTestClassResolvesToDoNothing(
    table: ClassTable, engineId: UniqueId, className: string, next: Segment)
    requires |engineId| == 1
    requires className in table.classes
    requires !table.classes[className].isPotentialTestContainer
    requires !table.classes[className].isNestedTestClass
    requires next.kind == TypeNestedClass || next.kind == TypeMethod
    ensures FromUniqueId(table, engineId + [Segment(TypeClass, className)], engineId) == Ok(Some(DoNothing))
    ensures FromUniqueId(table, engineId + [Segment(TypeClass, className), next], engineId) == Err(ClassCast)
  {
    var head := Segment(TypeClass, className);
    assert (engineId + [head])[1..] == [head];
    assert (engineId + [head, next])[1..] == [head, next];
    assert FromClass(table.classes[className], engineId) == Ok(DoNothing);
    assert Step(table, engineId, head, None) == Next(DoNothing);
    assert [head][1..] == [];
    assert CreateTestable(table, engineId, [head], None) == CreateTestable(table, engineId, [], Some(DoNothing));
    assert [head, next][1..] == [next];
    assert CreateTestable(table, engineId, [next], Some(DoNothing)) == Err(ClassCast);
  }

  // ---------------------------------------------------------------------
  // End-to-end example
  // ---------------------------------------------------------------------

  /**
   * Class `Outer` holds the nested test class `Inner`, which holds the test
   * method `works()`. Each gets the expected ID, and the method's ID
   * resolves back to the same method testable.
   */
  lemma OuterInnerWorksExample()
    ensures
      var engineId := [Segment("engine", "junit5")];
      var outer := Class("com.example.Outer", "Outer", None, true, false);
      var inner := Class("com.example.Outer$Inner", "Inner", Some(outer), false, true);
      var works := Method("works", [], true);
      var table := ClassTable(
        map["com.example.Outer" := outer, "com.example.Outer$Inner" := inner],
        map[("com.example.Outer$Inner", "works()") := works]);
      var outerId := engineId + [Segment("class", "com.example.Outer")];
      var innerId := outerId + [Segment("nested-class", "Inner")];
      var worksId := innerId + [Segment("method", "works()")];
      && FromClass(outer, engineId) == Ok(JUnit5Class(outerId, outer))
      && FromClass(inner, engineId) == Ok(JUnit5NestedClass(innerId, inner, outer))
      && FromMethod(works, inner, engineId) == Ok(JUnit5Method(worksId, works, inner))
      && FromUniqueId(table, worksId, engineId) == Ok(Some(JUnit5Method(worksId, works, inner)))
  {
    var engineId := [Segment("engine", "junit5")];
    var outer := Class("com.example.Outer", "Outer", None, true, false);
    var inner := Class("com.example.Outer$Inner", "Inner", Some(outer), false, true);
    var works := Method("works", [], true);
    var table := ClassTable(
      map["com.example.Outer" := outer, "com.example.Outer$Inner" := inner],
      map[("com.example.Outer$Inner", "works()") := works]);
    assert MethodId(works) == "works()";
    assert inner.name == outer.name + "$" + inner.simpleName;
    assert ResolvableByName(table, outer);
    assert ResolvableByName(table, inner);
    MethodRoundTrip(table, works, inner, engineId);
  }
}

=== FILE: unique_ids.dfy ===
/**
 * Unique IDs: an immutable path of (type, value) segments that starts at the
 * owning engine and ends at one container or test.
 */
module UniqueIds {

  /** One step of the path, e.g. ("class", "com.example.Outer"). */
  datatype Segment = Segment(kind: string, value: string)

  /** Two IDs are equal exactly when their segment sequences are equal. */
  type UniqueId = seq<Segment>

  /** `UniqueId.append`: a new ID one segment longer; the receiver is left as its prefix. */
  function Append(id: UniqueId, kind: string, value: string): (r: UniqueId)
    ensures |r| == |id| + 1
    ensures r[..|id|] == id
    ensures r[|id|] == Segment(kind, value)
  {
    id + [Segment(kind, value)]
  }

  /** `prefix` is a proper prefix of `id`: `id` was minted below `prefix`. */
  predicate StrictlyBelow(id: UniqueId, prefix: UniqueId)
  {
    |prefix| < |id| && id[..|prefix|] == prefix
  }
}
